=== FILE: README.md ===
# OCRtunes console core, modelled in Dafny

OCRtunes is a small terminal program. It keeps user accounts in a comma-separated
file and drives everything through numbered menus. This project models the
decision logic under its console I/O as pure Dafny functions over immutable
datatypes:

- **Menu engine** (`menu.dfy`, module `Menu`). This models `create_menu`,
  `add_option` and `show_menu`. Options are filtered by an optional visibility
  predicate over the session. The engine stops when nothing is visible. It reads
  a selection, where 0 cancels, and dispatches the chosen callback. The callback
  is modelled by how it ended (`Returned`, `Interrupted` or `Failed`) and the
  cleanups it registered. A `KeyboardInterrupt` the callback raises itself is
  caught like Ctrl-C. Those cleanups then run in order whatever the outcome.
  The selection bound is kept as main.py has it: the number of options
  *added*. A selection above the visible count is therefore an explicit
  `SelectionOutOfRange` outcome, which is the `IndexError` on `relevant_options`.
- **Prompts** (`prompts.dfy`, module `Prompts`). These model `get_selection`,
  `text_input`, `genre_input`, `name_input` and `date_input`. Each prompt is a
  one-step function from one console event (a typed line, or Ctrl-C) to
  `Retry`, a value, or an escaping exception. `Run` is the retry loop over a
  stream of events. The current year is a parameter of `DateStep`.
- **Records** (`records.dfy`, module `Records`). This covers `iso_date` and
  `new_record` as string builders, and `get_account` as a first-match scan over
  rows that are already split into fields. It also models reading a written
  line back as a row, for unquoted lines.
- **Session** (`app.dfy`, module `App`). This covers the global `state` as a
  `Session` value, and the main menu with its four predicates. It models login
  (`pick_account`), logout (`log_out`), the edit-interests sub-menu, and the
  four prompts of `create_account`.
- **Text** (`text.dfy`, module `Text`) holds ASCII models of the Python string
  builtins the program uses: `isnumeric`, `int`, `str`, `split`, `join`,
  `lower`, `title` and `strip`. `wrappers.dfy` holds `Option`.

Behaviours of main.py the model keeps as written:

- The selection bound is `len(options)`, not the visible count.
- A non-empty short account row before the match is skipped. Only an empty
  row reached first, or a matching row with fewer than four fields, fails,
  with the `IndexError` of `get_account`.
- Ctrl-C at the selection prompt gives the same result as typing 0.

## Model

| member | source | states |
|---|---|---|
| Prompts.Run | main.py:113-123 | A prompt's retry loop answers with the first event its step does not reject; every earlier event was rejected; it runs dry exactly when every event is rejected |
| Prompts.SelectionStep | main.py:106-125 | A selection is accepted exactly when the line is a non-empty run of ASCII digits whose value is at most `max`, and is that value; Ctrl-C yields 0; no typed line of at most 4300 digits and no Ctrl-C makes it raise |
| Prompts.ReadSelection | main.py:106-125 | Over Ctrl-C and typed lines of at most 4300 digits, the whole selection loop only ever answers with an integer in [0, max] and never raises |
| Prompts.TextStep | main.py:164-171 | An empty line takes a non-empty default, is re-asked without one, and any other line is returned as typed; the result is never empty; Ctrl-C escapes |
| Prompts.ReadText | main.py:164-171 | The `text_input` loop answers only with a non-empty string; of typed lines and Ctrl-C, only Ctrl-C escapes it |
| Prompts.GenreStep | main.py:174-180 | A line is accepted exactly when its lower-case form is one of pop, rock, hip hop, rap, and the result is that lower-case form |
| Prompts.ReadGenre | main.py:174-180 | The `genre_input` loop answers only with a known genre |
| Prompts.NameStep | main.py:128-133 | A name is accepted exactly when the line is non-empty, and the result is the title-cased line (same length, already in title case) |
| Prompts.ReadName | main.py:128-133 | The `name_input` loop answers only with a non-empty title-cased name |
| Prompts.DateShapeSplit | main.py:139-147 | On a line matching `^\d{4}-\d{2}-\d{2}$`, `split("-")` yields exactly the three digit runs |
| Prompts.DateStep | main.py:136-161 | A date is accepted exactly when the stripped line has the DDDD-DD-DD shape, year <= current year, month <= 12 and day <= 31, with no lower bound; it returns [year, month, day] |
| Prompts.ReadDate | main.py:136-161 | The `date_input` loop answers only with three parts within those bounds |
| Menu.Visible | main.py:31-38 | Every visible option is shown by its predicate (or has none), and there are at most as many as were added |
| Menu.VisibleAppend | main.py:31-38 | Filtering distributes over concatenation, so the visible list keeps insertion order |
| Menu.VisibleMember | main.py:31-38 | An option is visible exactly when it was added and has no predicate or its predicate holds |
| Menu.VisibleEmptyIff | main.py:31-42 | Nothing is visible exactly when every option's predicate is false |
| Menu.VisibleAllShown | main.py:31-38 | When every predicate holds, the visible list is the whole option list |
| Menu.Dispatch | main.py:56-65 | The registered cleanups run exactly once each, in registration order, whether the callback returned, was interrupted or failed; only a callback taking a parameter can register them; a `KeyboardInterrupt`, from Ctrl-C or raised by the callback, prints one message before the cleanups, "Aborting..." when a cleanup was registered and "Aborted!" otherwise, and is not propagated; any other exception is, and nothing else prints a message |
| Menu.InterruptNeverEscapes | main.py:56-62 | A callback that raised `KeyboardInterrupt` is handled exactly like one interrupted by Ctrl-C, and neither lets the interrupt leave `show_menu` |
| Menu.ShowMenu | main.py:25-70 | Nothing visible ends the pass before any selection is read; selection 0 (or Ctrl-C) cancels without a callback; a selection in [1, visible count] dispatches the visible option at that position; a selection above the visible count but within the number added is an out-of-range error carrying the selection read; the menu is shown again exactly when looping and no exception escaped |
| Menu.DispatchedIsShown | main.py:31-55 | A dispatched action belongs to an option that was added and whose predicate holds, so a hidden option can never be chosen |
| Menu.AllShownInRange | main.py:49-55 | When every option is shown, the out-of-range outcome cannot happen |
| Records.IsoDate | main.py:11-12 | The parts printed with `str` and joined by "-" hold no comma, quote or line break, so a stored date never needs CSV quoting |
| Records.IsoDateUnpadded | main.py:11-12 | [2000, 1, 5] is stored as "2000-1-5", not as the typed "2000-01-05" |
| Records.IsoDateReadBack | main.py:11-12 | Splitting a stored date on "-" and reading each piece as an integer gives the parts back |
| Records.NewRecord | main.py:75-77 | A record ends with a line terminator, and it is the only one when no column holds a newline |
| Records.RecordRoundTrip | main.py:75-77 | A record read back and split on "," gives exactly the columns, provided no column holds a comma, a double quote, a carriage return or a newline; a single empty column writes a blank line, which reads back as the empty row |
| Records.BlankLineFailsLookup | main.py:224-228 | A blank line reads as the empty row, and `get_account` reaching it first fails with IndexError on `account[0]` |
| Records.CommaBreaksRecord | main.py:75-77 | A comma inside a column is not escaped: a column `a,b` reads back as the two fields `a` and `b`, shifting every later column |
| Records.GetAccount | main.py:224-237 | The account comes from the first row whose field 0 equals the name exactly, fields 0-3 mapped to name, birth date, artist and genre; None exactly when every row is readable and none matches; an empty row reached first, or a short matching row, is an IndexError |
| Records.GetAccountAppend | main.py:224-237 | Rows appended after a failed lookup are searched as if on their own, so earlier non-matching rows never hide a new account |
| App.MainMenu | main.py:298-302 | The main menu adds create, log in, log out and edit interests in that order; no callback takes a parameter; the first two are shown exactly when nobody is logged in, the last two exactly when somebody is |
| App.MainMenuVisible | main.py:298-302 | In either session state exactly two of the four main-menu options are visible: create/log in when nobody is logged in, log out/edit interests otherwise |
| App.MainMenuNeverEmpty | main.py:298-303 | The main menu never reports that no options are available |
| App.MainMenuSelectionPastVisible | main.py:49-55 | Logged out, typing 3 passes the selection prompt (bound 4) and then indexes past the two visible options |
| App.EditInterestsMenu | main.py:283-287 | The edit-interests sub-menu adds edit artist then edit genre, without predicates, so both are always shown; neither callback takes a parameter |
| App.EditInterestsInRange | main.py:283-287 | The edit-interests sub-menu always shows both options, so no accepted selection is out of range |
| App.LogOutSetsDefault | main.py:241-262 | After `log_out` succeeds, the default the login prompt offers is the name of the account just logged out; Ctrl-C at the logout prompt leaves the default as it was |
| App.LogInStep | main.py:240-253 | For the effective name (the line, or the remembered name on an empty line): empty re-asks; a title-cased name found by the lookup logs that account in, leaving `old_user` alone; an unknown name re-asks; a malformed row raises IndexError; Ctrl-C escapes. A logged-in account is the first match for its own title-cased name, equal to what was typed up to letter case |
| App.LogOutStep | main.py:256-264 | Ctrl-C at the prompt leaves the session unchanged; any line removes `user` and remembers its name as `old_user`; without a user `log_out` raises KeyError; it never re-asks |
| App.LogBackInWithDefault | main.py:240-264 | After logging out, an empty line at the login prompt logs the same account back in |
| App.LogInOutSwitchMenu | main.py:251-263 | Logging in switches the visible main-menu options to log out/edit interests, and logging out switches them back |
| App.AccountRecord | main.py:216-218 | The line appended ends with a line terminator, and it reads back as name, stored date, artist and genre whenever those hold no comma, double quote, carriage return or newline |
| App.CreateAccountRun | main.py:208-212 | An account that completes creation has a non-empty title-cased name, a date within the `date_input` bounds, a non-empty artist and a known genre; only Ctrl-C stops it |
| App.CreateThenLogIn | main.py:208-251 | An account created under a new name and appended to the rows can be logged into by typing the name in any letter case, and the session then holds exactly the stored fields, provided name and artist hold no comma, double quote, carriage return or newline |
| App.StoredDateMatchesTyped | main.py:210-217 | The stored birth date equals what was typed exactly when none of year, month and day was typed with a leading zero |
| Text.Title | main.py:133 | `str.title` keeps the length and changes only the case of letters; `Text.TitleAt` gives its per-position rule |
| Text.TitleIgnoresCase | main.py:245 | Two names that agree up to letter case have the same title-cased form, so login does not depend on the case typed |
| Text.TitleIdempotent | main.py:133 | Title-casing an already title-cased name changes nothing |

## Left out

- `update_user`, and with it the whole of `edit_artist`, are not modelled. `update_user` appends to the list it is enumerating, so it never ends for two or more rows. It raises `IndexError` for one row. It ignores the user and overwrites a row with a bare string. It is also file I/O.
- `edit_genre` is an empty stub. It appears only as a sub-menu action.
- File handling is not modelled: `get_file`, the `open`/append in `create_account`, and the `csv` reader and writer with their quoting rules. Rows are taken as already split into fields.
- Presentation is not modelled: `print_heading` (random tagline, ASCII art), `color_wrap` and ANSI codes. No `print` output is modelled apart from the abort message.
- `KeyboardInterrupt` is modelled as a value, not as an asynchronous signal. It is an `Interrupt` console event, or the `Interrupted` or `Failed(KeyboardInterrupt)` outcome of a callback.
- The parameter count found by `inspect.signature` is modelled as the `wantsRegistrar` flag.
- `date.today()` is not modelled; the current year is a parameter.
- Unicode behaviour of `isnumeric`, the regex `\d`, `str.title`, `str.lower` and `str.strip` is not modelled. Only ASCII is.
- The unused imports (`email.policy.default`, `click.prompt`) are not modelled.
- Prompts.Run: models an unbounded retry loop. Every re-prompt in main.py is a recursive call, as is the main menu's loop, so CPython's recursion limit would end a long enough run with `RecursionError`; that is not modelled.
- Prompts.Run: end of input is not modelled. At end of file `input()` raises `EOFError`, which no prompt catches and which escapes every prompt, `show_menu` included; `Exhausted` only means that the events given to the model ran out, and "never raises" in the rows above is stated over typed lines and Ctrl-C.
- Prompts.SelectionStep: covers ASCII lines only. A non-ASCII numeral such as "²" or "½" passes `isnumeric()` and then makes `int()` raise `ValueError`, so "nothing escapes" holds only for ASCII input. A line of more than 4300 ASCII digits also passes `isnumeric()`, and then `int()` raises `ValueError` under the integer string conversion limit (`sys.int_max_str_digits`, 4300 by default since CPython 3.11); the model accepts or re-asks such a line instead.
- Prompts.ReadSelection: "never raises" likewise excludes the `ValueError` that `int()` raises at main.py:117 for a line of more than 4300 digits or a non-ASCII numeral; that error would escape `get_selection` and `show_menu`, and is not modelled.
- Records.ReadRow: models reading back only fields with no comma, double quote, carriage return or newline, and a blank line as the empty row; the CSV reader's quoting and line-break rules are not modelled, so round trips are stated only for such fields.
- Menu.ShowMenu: models one pass of the menu. The `loop=True` recursion is reported through the `showAgain` flag, because a callback's effect on the session is only known at the application level.
- Menu.Dispatch: a cleanup that itself raises is not modelled.
- App.LogInStep: models one pass of `pick_account`. Its re-prompt on an unknown name is `Retry`, which `Prompts.Run` turns into the loop.

=== FILE: app.dfy ===
/** The OCRtunes program built on the engine: the session `state`, the main
    menu and its four visibility predicates, the edit-interests sub-menu,
    logging in (`pick_account`), logging out (`log_out`) and the account line
    `create_account` appends. */
module App {
  import opened Wrappers
  import opened Text
  import opened Prompts
  import opened Records
  import opened Menu

  /** The global `state` dictionary: the `"user"` key holds the logged-in
      account, the `"old_user"` key the name of the last account logged out. */
  datatype Session = Session(user: Option<Account>, oldUser: Option<string>)

  /** The callbacks of the main menu. */
  datatype Action = CreateAccount | LogIn | LogOut | EditInterests

  /** The main menu, in the order the options are added. No callback takes a
      parameter; create and log in are shown only while nobody is logged in,
      log out and edit interests only while somebody is. */
  function MainMenu(): (r: seq<MenuOption<Session, Action>>)
    ensures |r| == 4
    ensures Actions(r) == [CreateAccount, LogIn, LogOut, EditInterests]
    ensures forall i :: 0 <= i < |r| ==> !r[i].wantsRegistrar && r[i].show.Some?
    ensures forall s: Session :: (Shown(r[0], s) <==> s.user.None?) && (Shown(r[1], s) <==> s.user.None?)
    ensures forall s: Session :: (Shown(r[2], s) <==> s.user.Some?) && (Shown(r[3], s) <==> s.user.Some?)
  {
    [ MenuOption("Create an account", CreateAccount, false, Some((s: Session) => s.user.None?)),
      MenuOption("Log in", LogIn, false, Some((s: Session) => s.user.None?)),
      MenuOption("Log out", LogOut, false, Some((s: Session) => s.user.Some?)),
      MenuOption("Edit interests", EditInterests, false, Some((s: Session) => s.user.Some?)) ]
  }

  function Actions(options: seq<MenuOption<Session, Action>>): seq<Action>
  {
    seq(|options|, i requires 0 <= i < |options| => options[i].action)
  }

  /** In either session state exactly two of the four options are shown:
      create/log in while nobody is logged in, log out/edit once somebody is. */
  lemma MainMenuVisible(s: Session)
    ensures |Visible(MainMenu(), s)| == 2
    ensures s.user.None? ==> Actions(Visible(MainMenu(), s)) == [CreateAccount, LogIn]
    ensures s.user.Some? ==> Actions(Visible(MainMenu(), s)) == [LogOut, EditInterests]
  {
    var m := MainMenu();
    assert m[1..][1..][1..][1..] == [];
    assert Visible(m[1..][1..][1..][1..], s) == [];
  }

  /** The main menu never reports "No options available", so its loop only ends
      by cancelling or by an exception. */
  lemma MainMenuNeverEmpty(s: Session, inputs: seq<Input>, behaviour: Action -> CallbackRun<()>)
    ensures !ShowMenu(MainMenu(), s, true, inputs, behaviour).NothingVisible?
  {
    MainMenuVisible(s);
  }

  /** The bound of the selection prompt is the four options added, not the two
      shown: typing 3 while logged out passes the prompt and then indexes past
      the visible list. */
  lemma MainMenuSelectionPastVisible(s: Session, behaviour: Action -> CallbackRun<()>)
    requires s.user.None?
    ensures ShowMenu(MainMenu(), s, true, [Line("3")], behaviour) == SelectionOutOfRange(3, 1)
  {
    MainMenuVisible(s);
    assert ParseDigits("3") == 3 by {
      assert "3"[..0] == "";
    }
  }

  /** The callbacks of the edit-interests sub-menu. */
  datatype EditAction = EditArtist | EditGenre

  /** `edit_interests`: two options without predicates, so both are always
      shown, and neither callback takes a parameter. */
  function EditInterestsMenu(): (r: seq<MenuOption<Session, EditAction>>)
    ensures |r| == 2
    ensures r[0].action == EditArtist && r[1].action == EditGenre
    ensures forall i, s: Session :: 0 <= i < |r| ==> Shown(r[i], s) && !r[i].wantsRegistrar
  {
    [ MenuOption("Edit favourite artist", EditArtist, false, None),
      MenuOption("Edit favourite genre", EditGenre, false, None) ]
  }

  /** Every option of the sub-menu is shown, so no selection it accepts can
      index past the visible list. */
  lemma EditInterestsInRange(s: Session, inputs: seq<Input>, behaviour: EditAction -> CallbackRun<()>)
    ensures !ShowMenu(EditInterestsMenu(), s, false, inputs, behaviour).SelectionOutOfRange?
    ensures !ShowMenu(EditInterestsMenu(), s, false, inputs, behaviour).NothingVisible?
  {
    AllShownInRange(EditInterestsMenu(), s, false, inputs, behaviour);
    VisibleAllShown(EditInterestsMenu(), s);
  }

  /** The default `pick_account` offers: the last name logged out, or none. */
  function LoginDefault(s: Session): (r: string)
    ensures s.oldUser.Some? ==> r == s.oldUser.value
    ensures s.oldUser.None? ==> r == ""
  {
    if s.oldUser.Some? then s.oldUser.value else ""
  }

  /** One pass of `pick_account` over one event: read a name (an empty line takes
      the default), title-case it and look it up; an unknown name asks again. */
  function LogInStep(s: Session, rows: seq<seq<string>>, ev: Input): (r: Step<Session>)
    ensures ev.Interrupt? ==> r == Raised(KeyboardInterrupt)
    ensures r.Raised? && ev.Line? ==> r.signal == IndexError
    ensures r.Done? ==> r.value.oldUser == s.oldUser && r.value.user.Some?
    ensures r.Done? ==>
      var account := r.value.user.value;
      && Title(account.name) == account.name
      && GetAccount(rows, account.name) == Found(account)
    ensures r.Done? ==>
      Lower(r.value.user.value.name) == Lower(if ev.text == "" then LoginDefault(s) else ev.text)
    ensures ev.Line? ==>
      var typed := if ev.text == "" then LoginDefault(s) else ev.text;
      var lookup := GetAccount(rows, Title(typed));
      && (typed == "" ==> r == Retry)
      && (typed != "" && lookup.Found? ==> r == Done(s.(user := Some(lookup.account))))
      && (typed != "" && lookup.NotFound? ==> r == Retry)
      && (typed != "" && lookup.Malformed? ==> r == Raised(IndexError))
  {
    match TextStep(LoginDefault(s), ev)
    case Raised(sig) => Raised(sig)
    case Retry => Retry
    case Done(typed) =>
      var username := Title(typed);
      TitleIdempotent(typed);
      match GetAccount(rows, username)
      case Found(account) => Done(s.(user := Some(account)))
      case NotFound => Retry
      case Malformed(_) => Raised(IndexError)
  }

  /** `log_out` over one event. Ctrl-C at the prompt is caught there and leaves
      the session as it was; any line logs out, remembering the name. Without a
      logged-in user `log_out` raises `KeyError`. */
  function LogOutStep(s: Session, ev: Input): (r: Step<Session>)
    ensures !r.Retry?
    ensures ev.Interrupt? ==> r == Done(s)
    ensures ev.Line? && s.user.Some? ==> r.Done? && r.value.user.None? && r.value.oldUser == Some(s.user.value.name)
    ensures ev.Line? && s.user.None? ==> r == Raised(KeyError)
  {
    match ev
    case Interrupt => Done(s)
    case Line(_) =>
      if s.user.None? then Raised(KeyError)
      else Done(Session(None, Some(s.user.value.name)))
  }

  /** `log_out` sets the default the next login prompt offers: the name of the
      account just logged out. Ctrl-C at its prompt keeps the old default. */
  lemma LogOutSetsDefault(s: Session, ev: Input)
    ensures s.user.Some? && ev.Line? ==> LoginDefault(LogOutStep(s, ev).value) == s.user.value.name
    ensures ev.Interrupt? ==> LoginDefault(LogOutStep(s, ev).value) == LoginDefault(s)
  {
  }

  /** Logging out and pressing enter at the next login prompt logs the same
      account back in, as long as the account rows have not changed. */
  lemma LogBackInWithDefault(s: Session, rows: seq<seq<string>>, ev: Input, out: Input)
    requires LogInStep(s, rows, ev).Done?
    requires out.Line?
    ensures var loggedIn := LogInStep(s, rows, ev).value;
      var loggedOut := LogOutStep(loggedIn, out).value;
      LogInStep(loggedOut, rows, Line("")) == Done(Session(loggedIn.user, loggedOut.oldUser))
  {
    var loggedIn := LogInStep(s, rows, ev).value;
    var account := loggedIn.user.value;
    var typed := TextStep(LoginDefault(s), ev).value;
    assert |account.name| == |typed| > 0;
    var loggedOut := LogOutStep(loggedIn, out).value;
    assert TextStep(LoginDefault(loggedOut), Line("")) == Done(account.name);
  }

  /** Logging in switches the main menu to the logged-in options, and logging
      out switches it back. */
  lemma LogInOutSwitchMenu(s: Session, rows: seq<seq<string>>, ev: Input, out: Input)
    requires LogInStep(s, rows, ev).Done?
    requires out.Line?
    ensures Actions(Visible(MainMenu(), LogInStep(s, rows, ev).value)) == [LogOut, EditInterests]
    ensures Actions(Visible(MainMenu(), LogOutStep(LogInStep(s, rows, ev).value, out).value)) == [CreateAccount, LogIn]
  {
    MainMenuVisible(LogInStep(s, rows, ev).value);
    MainMenuVisible(LogOutStep(LogInStep(s, rows, ev).value, out).value);
  }

  /** The line `create_account` appends to the accounts file: one line that
      reads back as name, stored date, artist and genre when those are plain. */
  function AccountRecord(name: string, birth: seq<nat>, artist: string, genre: string): (r: string)
    ensures |r| >= 1 && r[|r| - 1] == '\n'
    ensures PlainField(name) && PlainField(artist) && PlainField(genre) ==>
      ReadRow(r) == [name, IsoDate(birth), artist, genre]
  {
    var columns := [name, IsoDate(birth), artist, genre];
    if PlainField(name) && PlainField(artist) && PlainField(genre) then
      RecordRoundTrip(columns);
      NewRecord(columns)
    else
      NewRecord(columns)
  }

  /** How `create_account`'s four prompts ended over a stream of events. */
  datatype Creation =
    | Created(name: string, birth: seq<nat>, artist: string, genre: string, used: nat)
    | Stopped(signal: Signal, used: nat)
    | CreationInputEnded

  /** `create_account`: name, date of birth, favourite artist and favourite genre,
      each prompt retrying on its own, read one after the other from `inputs`. */
  function CreateAccountRun(currentYear: int, inputs: seq<Input>): (r: Creation)
    ensures r.Created? ==>
      && |r.name| > 0 && Title(r.name) == r.name
      && |r.birth| == 3 && r.birth[0] <= currentYear && r.birth[1] <= 12 && r.birth[2] <= 31
      && |r.artist| > 0
      && r.genre in Genres
    ensures !r.CreationInputEnded? ==> 1 <= r.used <= |inputs|
    ensures r.Stopped? ==> r.signal == KeyboardInterrupt
  {
    match ReadName(inputs)
    case Exhausted => CreationInputEnded
    case Escaped(sig, k) => Stopped(sig, k)
    case Answered(name, k1) =>
      var rest1 := inputs[k1..];
      match ReadDate(currentYear, rest1)
      case Exhausted => CreationInputEnded
      case Escaped(sig, k) => Stopped(sig, k1 + k)
      case Answered(birth, k2) =>
        var rest2 := rest1[k2..];
        match ReadText(rest2)
        case Exhausted => CreationInputEnded
        case Escaped(sig, k) => Stopped(sig, k1 + k2 + k)
        case Answered(artist, k3) =>
          var rest3 := rest2[k3..];
          match ReadGenre(rest3)
          case Exhausted => CreationInputEnded
          case Escaped(sig, k) => Stopped(sig, k1 + k2 + k3 + k)
          case Answered(genre, k4) => Created(name, birth, artist, genre, k1 + k2 + k3 + k4)
  }

  /** An account created under a new name can be logged into by typing the name
      in any letter case: the record reads back as the four fields, with the
      date stored by `iso_date`. Names and artists holding a comma are excluded,
      since the record is not quoted. */
  lemma CreateThenLogIn(c: Creation, rows: seq<seq<string>>, s: Session, typed: string)
    requires c.Created? && Title(c.name) == c.name && c.genre in Genres
    requires PlainField(c.name) && PlainField(c.artist)
    requires GetAccount(rows, c.name).NotFound?
    requires typed != "" && Lower(typed) == Lower(c.name)
    ensures var stored := rows + [ReadRow(AccountRecord(c.name, c.birth, c.artist, c.genre))];
      LogInStep(s, stored, Line(typed)) == Done(s.(user := Some(Account(c.name, IsoDate(c.birth), c.artist, c.genre))))
  {
    var columns := [c.name, IsoDate(c.birth), c.artist, c.genre];
    assert PlainField(c.genre);
    var row := ReadRow(AccountRecord(c.name, c.birth, c.artist, c.genre));
    assert row == columns;
    assert GetAccount([row], c.name) == Found(Account(c.name, IsoDate(c.birth), c.artist, c.genre)) by {
      assert GetAccountFrom([row], c.name, 0) == Found(Account(row[0], row[1], row[2], row[3]));
    }
    GetAccountAppend(rows, [row], c.name);
    TitleIgnoresCase(typed, c.name);
  }

  /** What is stored for a date of birth equals what was typed exactly when none
      of the year, month and day was written with a leading zero: `iso_date`
      drops the padding `date_input` demands. */
  lemma StoredDateMatchesTyped(currentYear: int, ev: Input)
    requires DateStep(currentYear, ev).Done?
    ensures var typed := Strip(ev.text);
      IsoDate(DateStep(currentYear, ev).value) == typed <==> typed[0] != '0' && typed[5] != '0' && typed[8] != '0'
  {
    var typed := Strip(ev.text);
    var parts := DateStep(currentYear, ev).value;
    var written := [typed[0..4], typed[5..7], typed[8..10]];
    var printed := seq(3, i requires 0 <= i < 3 => NatToString(parts[i]));
    forall i | 0 <= i < 3
      ensures NatToString(parts[i]) == written[i] <==> written[i][0] != '0'
    {
      CanonicalIff(written[i]);
    }
    DateShapeSplit(typed);
    IsoDateReadBack(parts);
    forall i | 0 <= i < 3
      ensures '-' !in printed[i]
    {
      assert IsNumeric(printed[i]);
    }
    SplitJoin(printed, '-');
    if typed[0] != '0' && typed[5] != '0' && typed[8] != '0' {
      assert printed == written;
      JoinSplit(typed, '-');
    }
  }
}

=== FILE: menu.dfy ===
/** The menu engine of `create_menu` / `add_option` / `show_menu`: visibility
    filtering, the selection prompt, dispatch with 0 as "cancel", and the
    cleanup discipline around a dispatched callback.

    The engine is generic in the session `S` the visibility predicates look at,
    in the action `A` a callback stands for and in the cleanup `C` a callback
    registers. What a callback does is passed in as `behaviour`: how it ended
    and which cleanups it registered. */
module Menu {
  import opened Wrappers
  import opened Prompts

  /** One entry created by `add_option(name, callback, show)`. `wantsRegistrar`
      stands for "the callback declares a parameter", which main.py finds
      out by introspecting the callback's signature. */
  datatype MenuOption<!S, A> = MenuOption(name: string, action: A, wantsRegistrar: bool, show: Option<S -> bool>)

  /** An option without a predicate is always shown (a function object is truthy). */
  predicate Shown<S, A>(o: MenuOption<S, A>, s: S)
  {
    o.show.None? || o.show.value(s)
  }

  /** `relevant_options`: the shown options, in insertion order. */
  function Visible<S, A>(options: seq<MenuOption<S, A>>, s: S): (r: seq<MenuOption<S, A>>)
    ensures |r| <= |options|
    ensures forall i :: 0 <= i < |r| ==> Shown(r[i], s)
  {
    if |options| == 0 then []
    else (if Shown(options[0], s) then [options[0]] else []) + Visible(options[1..], s)
  }

  /** Filtering distributes over concatenation: together with the one-option
      case this pins `Visible` down as the order-preserving filter. */
  lemma {:induction false} VisibleAppend<S, A>(a: seq<MenuOption<S, A>>, b: seq<MenuOption<S, A>>, s: S)
    ensures Visible(a + b, s) == Visible(a, s) + Visible(b, s)
  {
    if |a| > 0 {
      assert (a + b)[1..] == a[1..] + b;
      VisibleAppend(a[1..], b, s);
    } else {
      assert a + b == b;
    }
  }

  /** An option is visible exactly when it was added and its predicate holds. */
  lemma {:induction false} VisibleMember<S, A>(options: seq<MenuOption<S, A>>, s: S, o: MenuOption<S, A>)
    ensures o in Visible(options, s) <==> o in options && Shown(o, s)
  {
    if |options| > 0 {
      VisibleMember(options[1..], s, o);
      assert options == [options[0]] + options[1..];
    }
  }

  /** Nothing is visible exactly when every predicate is false. */
  lemma {:induction false} VisibleEmptyIff<S, A>(options: seq<MenuOption<S, A>>, s: S)
    ensures Visible(options, s) == [] <==> forall i :: 0 <= i < |options| ==> !Shown(options[i], s)
  {
    if |options| > 0 {
      VisibleEmptyIff(options[1..], s);
      assert forall i :: 1 <= i < |options| ==> options[i] == options[1..][i - 1];
    }
  }

  /** When every predicate holds, the visible list is the whole list. */
  lemma {:induction false} VisibleAllShown<S, A>(options: seq<MenuOption<S, A>>, s: S)
    requires forall i :: 0 <= i < |options| ==> Shown(options[i], s)
    ensures Visible(options, s) == options
  {
    if |options| > 0 {
      assert forall i :: 0 <= i < |options| - 1 ==> options[1..][i] == options[i + 1];
      VisibleAllShown(options[1..], s);
      assert options == [options[0]] + options[1..];
    }
  }

  /** How a dispatched callback ended: it returned, Ctrl-C interrupted it, or
      some exception left it. */
  datatype Outcome = Returned | Interrupted | Failed(signal: Signal)

  /** The `except KeyboardInterrupt` clause catches the interrupt however the
      callback came to raise it. */
  predicate Interrupts(o: Outcome)
  {
    o.Interrupted? || o == Failed(KeyboardInterrupt)
  }

  /** What a callback did: how it ended and the cleanups it asked to register. */
  datatype CallbackRun<C> = CallbackRun(outcome: Outcome, registered: seq<C>)

  /** Observable effects of a dispatch, in order. */
  datatype Event<C> = Message(text: string) | CleanedUp(cleanup: C)

  /** The effects of a dispatch and the exception, if any, that leaves `show_menu`. */
  datatype Report<C> = Report(trace: seq<Event<C>>, escaped: Option<Signal>)

  /** The cleanups a trace ran, in order. */
  function Cleanups<C>(trace: seq<Event<C>>): seq<C>
  {
    if |trace| == 0 then []
    else (if trace[0].CleanedUp? then [trace[0].cleanup] else []) + Cleanups(trace[1..])
  }

  lemma {:induction false} CleanupsOfRun<C>(cs: seq<C>)
    ensures Cleanups(seq(|cs|, i requires 0 <= i < |cs| => CleanedUp(cs[i]))) == cs
  {
    var t := seq(|cs|, i requires 0 <= i < |cs| => CleanedUp(cs[i]));
    if |cs| > 0 {
      assert t[1..] == seq(|cs[1..]|, i requires 0 <= i < |cs[1..]| => CleanedUp(cs[1..][i]));
      CleanupsOfRun(cs[1..]);
      assert cs == [cs[0]] + cs[1..];
    }
  }

  /** The message printed when Ctrl-C interrupts a callback. */
  function AbortMessage(cleanupCount: nat): string
  {
    if cleanupCount > 0 then "Aborting..." else "Aborted!"
  }

  /** The `try` / `except KeyboardInterrupt` / `finally` around the callback.
      Only a callback that takes a parameter receives the registrar, so only it
      can register cleanups. The interrupt message is printed in the `except`
      block, before the `finally` block runs the cleanups. */
  function Dispatch<C>(wantsRegistrar: bool, run: CallbackRun<C>): (r: Report<C>)
    ensures Cleanups(r.trace) == (if wantsRegistrar then run.registered else [])
    ensures |r.trace| == |Cleanups(r.trace)| + (if Interrupts(run.outcome) then 1 else 0)
    ensures Interrupts(run.outcome) ==>
      r.trace[0] == Message(if wantsRegistrar && |run.registered| > 0 then "Aborting..." else "Aborted!")
    ensures forall i :: 0 <= i < |r.trace| && r.trace[i].Message? ==> i == 0 && Interrupts(run.outcome)
    ensures r.escaped.Some? <==> run.outcome.Failed? && !Interrupts(run.outcome)
    ensures r.escaped.Some? ==> r.escaped.value == run.outcome.signal && r.escaped.value != KeyboardInterrupt
  {
    var cleanups := if wantsRegistrar then run.registered else [];
    var ran := seq(|cleanups|, i requires 0 <= i < |cleanups| => CleanedUp(cleanups[i]));
    CleanupsOfRun(cleanups);
    if Interrupts(run.outcome) then
      var trace := [Message(AbortMessage(|cleanups|))] + ran;
      assert trace[1..] == ran;
      Report(trace, None)
    else if run.outcome.Failed? then Report(ran, Some(run.outcome.signal))
    else Report(ran, None)
  }

  /** A callback that raised `KeyboardInterrupt` is handled exactly like one
      interrupted by Ctrl-C: the interrupt never leaves `show_menu`. */
  lemma InterruptNeverEscapes<C>(wantsRegistrar: bool, registered: seq<C>)
    ensures Dispatch(wantsRegistrar, CallbackRun(Failed(KeyboardInterrupt), registered))
         == Dispatch(wantsRegistrar, CallbackRun(Interrupted, registered))
    ensures Dispatch(wantsRegistrar, CallbackRun(Interrupted, registered)).escaped.None?
  {
  }

  /** One pass of `show_menu(loop)`. */
  datatype MenuResult<A, C> =
    | NothingVisible                                   // "No options available. Goodbye!"
    | InputEnded                                       // the event stream ended at the selection prompt
    | Cancelled(used: nat)                             // selection 0, or Ctrl-C at the prompt
    | SelectionOutOfRange(selection: nat, used: nat)   // IndexError on relevant_options
    | Dispatched(action: A, report: Report<C>, showAgain: bool, used: nat)

  /** `show_menu(loop)` for one pass. The selection bound is the number of
      options added, not the number visible, so a selection between the two
      counts indexes past `relevant_options` and raises `IndexError`. */
  function ShowMenu<S, A, C>(options: seq<MenuOption<S, A>>, s: S, loop: bool, inputs: seq<Input>,
                             behaviour: A -> CallbackRun<C>): (r: MenuResult<A, C>)
    ensures r.NothingVisible? <==> Visible(options, s) == []
    ensures Visible(options, s) != [] ==>
      var sel := ReadSelection(|options|, inputs);
      && (r.InputEnded? <==> sel.Exhausted?)
      && (r.Cancelled? <==> sel.Answered? && sel.value == 0)
      && (r.SelectionOutOfRange? <==> sel.Answered? && |Visible(options, s)| < sel.value)
      && (r.Dispatched? <==> sel.Answered? && 1 <= sel.value <= |Visible(options, s)|)
      && (!r.InputEnded? ==> r.used == sel.used)
    ensures r.SelectionOutOfRange? ==> |Visible(options, s)| < r.selection <= |options|
    ensures r.SelectionOutOfRange? ==>
      ReadSelection(|options|, inputs).Answered? && r.selection == ReadSelection(|options|, inputs).value
    ensures r.Dispatched? ==>
      var chosen := Visible(options, s)[ReadSelection(|options|, inputs).value - 1];
      && Shown(chosen, s)
      && r.action == chosen.action
      && r.report == Dispatch(chosen.wantsRegistrar, behaviour(chosen.action))
      && (r.showAgain <==> loop && r.report.escaped.None?)
  {
    var relevant := Visible(options, s);
    if |relevant| == 0 then NothingVisible
    else
      match ReadSelection(|options|, inputs)
      case Exhausted => InputEnded
      case Answered(selection, used) =>
        if selection == 0 then Cancelled(used)
        else if selection > |relevant| then SelectionOutOfRange(selection, used)
        else
          var option := relevant[selection - 1];
          var report := Dispatch(option.wantsRegistrar, behaviour(option.action));
          Dispatched(option.action, report, loop && report.escaped.None?, used)
  }

  /** A hidden option can never be dispatched: whatever is chosen was added to the
      menu and its predicate holds. */
  lemma DispatchedIsShown<S, A, C>(options: seq<MenuOption<S, A>>, s: S, loop: bool, inputs: seq<Input>,
                                   behaviour: A -> CallbackRun<C>)
    ensures var r := ShowMenu(options, s, loop, inputs, behaviour);
      r.Dispatched? ==> exists i :: 0 <= i < |options| && Shown(options[i], s) && options[i].action == r.action
  {
    var r := ShowMenu(options, s, loop, inputs, behaviour);
    if r.Dispatched? {
      var relevant := Visible(options, s);
      var chosen := relevant[ReadSelection(|options|, inputs).value - 1];
      VisibleMember(options, s, chosen);
      var i :| 0 <= i < |options| && options[i] == chosen;
      assert Shown(options[i], s);
    }
  }

  /** When every option is visible the bound equals the visible count, so the
      out-of-range outcome cannot happen. */
  lemma AllShownInRange<S, A, C>(options: seq<MenuOption<S, A>>, s: S, loop: bool, inputs: seq<Input>,
                                 behaviour: A -> CallbackRun<C>)
    requires forall i :: 0 <= i < |options| ==> Shown(options[i], s)
    ensures !ShowMenu(options, s, loop, inputs, behaviour).SelectionOutOfRange?
  {
    VisibleAllShown(options, s);
  }
}

=== FILE: prompts.dfy ===
/** The console prompts of the program. Each prompt is a retry loop around one
    decision; the decision is modelled here as a one-step function from a single
    console event to `Retry` or a value, and `Run` models the loop itself over a
    stream of console events. */
module Prompts {
  import opened Text

  /** One console event: a line the user typed (without its newline), or Ctrl-C
      while `input()` was blocked. */
  datatype Input = Line(text: string) | Interrupt

  /** Python exceptions that leave a prompt or a callback. */
  datatype Signal = KeyboardInterrupt | IndexError | KeyError

  /** What one pass through a prompt's body does with one event: ask again,
      return a value, or let an exception escape. */
  datatype Step<+T> = Retry | Done(value: T) | Raised(signal: Signal)

  /** What a prompt's retry loop does over a stream of events: it returned
      `value` or raised `signal` after `used` events, or the given events ran
      out while it was still asking. End of file on standard input, where
      `input()` raises `EOFError`, is not an event of this model. */
  datatype Answer<+T> = Answered(value: T, used: nat) | Escaped(signal: Signal, used: nat) | Exhausted

  /** The retry loop: feed events to `step` until it stops asking. */
  function Run<T>(step: Input -> Step<T>, inputs: seq<Input>): (r: Answer<T>)
    ensures r.Exhausted? <==> forall j :: 0 <= j < |inputs| ==> step(inputs[j]).Retry?
    ensures !r.Exhausted? ==> 1 <= r.used <= |inputs|
    ensures !r.Exhausted? ==> forall j :: 0 <= j < r.used - 1 ==> step(inputs[j]).Retry?
    ensures r.Answered? ==> step(inputs[r.used - 1]) == Done(r.value)
    ensures r.Escaped? ==> step(inputs[r.used - 1]) == Raised(r.signal)
  {
    if |inputs| == 0 then Exhausted
    else
      match step(inputs[0])
      case Done(v) => Answered(v, 1)
      case Raised(sig) => Escaped(sig, 1)
      case Retry =>
        match Run(step, inputs[1..])
        case Answered(v, k) => Answered(v, k + 1)
        case Escaped(sig, k) => Escaped(sig, k + 1)
        case Exhausted => Exhausted
  }

  /** `get_selection(max)` for one event. Ctrl-C at the prompt counts as 0;
      anything `isnumeric` rejects (empty, signed, spaced, non-digit) and any
      number above `max` asks again. A negative number cannot get past
      `isnumeric`, so the `selection < 0` branch of main.py is unreachable. */
  function SelectionStep(max: nat, ev: Input): (r: Step<nat>)
    ensures !r.Raised?
    ensures r.Done? ==> r.value <= max
    ensures ev.Interrupt? ==> r == Done(0)
    ensures ev.Line? ==> (r.Done? <==> IsNumeric(ev.text) && ParseDigits(ev.text) <= max)
    ensures ev.Line? && r.Done? ==> r.value == ParseDigits(ev.text)
  {
    match ev
    case Interrupt => Done(0)
    case Line(raw) =>
      if !IsNumeric(raw) then Retry
      else
        var selection := ParseDigits(raw);
        if selection > max then Retry
        else Done(selection)
  }

  /** The whole `get_selection` loop over a stream of events. */
  function ReadSelection(max: nat, inputs: seq<Input>): (r: Answer<nat>)
    ensures !r.Escaped?
    ensures r.Answered? ==> r.value <= max
  {
    Run(ev => SelectionStep(max, ev), inputs)
  }

  /** `text_input(prompt, default)` for one event; an empty `default` stands for
      Python's falsy `None`/`""`. The retry in main.py drops the default, but it
      only retries when the default is falsy, so every pass makes the same
      decision. */
  function TextStep(default: string, ev: Input): (r: Step<string>)
    ensures ev.Interrupt? <==> r == Raised(KeyboardInterrupt)
    ensures r.Retry? <==> ev == Line("") && default == ""
    ensures r.Done? ==> |r.value| > 0
    ensures r.Done? && ev.text != "" ==> r.value == ev.text
    ensures r.Done? && ev.text == "" ==> r.value == default
  {
    match ev
    case Interrupt => Raised(KeyboardInterrupt)
    case Line(raw) =>
      if default != "" && raw == "" then Done(default)
      else if raw == "" then Retry
      else Done(raw)
  }

  /** The genres `genre_input` accepts. */
  const Genres: seq<string> := ["pop", "rock", "hip hop", "rap"]

  /** `genre_input(prompt)` for one event: the inner `text_input` (no default)
      re-asks on an empty line, then the lower-cased answer must be a known genre. */
  function GenreStep(ev: Input): (r: Step<string>)
    ensures ev.Interrupt? <==> r == Raised(KeyboardInterrupt)
    ensures ev.Line? ==> (r.Done? <==> Lower(ev.text) in Genres)
    ensures r.Done? ==> r.value in Genres && r.value == Lower(ev.text)
  {
    match TextStep("", ev)
    case Raised(sig) => Raised(sig)
    case Retry => Retry
    case Done(text) =>
      var genre := Lower(text);
      if genre in Genres then Done(genre) else Retry
  }

  /** `name_input()` for one event: a non-empty line, title-cased. */
  function NameStep(ev: Input): (r: Step<string>)
    ensures ev.Interrupt? <==> r == Raised(KeyboardInterrupt)
    ensures ev.Line? ==> (r.Done? <==> |ev.text| >= 1)
    ensures r.Done? ==> r.value == Title(ev.text)
    ensures r.Done? ==> |r.value| == |ev.text| && Title(r.value) == r.value
  {
    match ev
    case Interrupt => Raised(KeyboardInterrupt)
    case Line(raw) =>
      if |raw| < 1 then Retry
      else
        TitleIdempotent(raw);
        Done(Title(raw))
  }

  /** The `name_input` loop over a stream of events. */
  function ReadName(inputs: seq<Input>): (r: Answer<string>)
    ensures r.Escaped? ==> r.signal == KeyboardInterrupt
    ensures r.Answered? ==> |r.value| > 0 && Title(r.value) == r.value
  {
    Run(NameStep, inputs)
  }

  /** The `text_input` loop (no default) over a stream of events. */
  function ReadText(inputs: seq<Input>): (r: Answer<string>)
    ensures r.Escaped? ==> r.signal == KeyboardInterrupt
    ensures r.Answered? ==> |r.value| > 0
  {
    Run(ev => TextStep("", ev), inputs)
  }

  /** The `genre_input` loop over a stream of events. */
  function ReadGenre(inputs: seq<Input>): (r: Answer<string>)
    ensures r.Escaped? ==> r.signal == KeyboardInterrupt
    ensures r.Answered? ==> r.value in Genres
  {
    Run(GenreStep, inputs)
  }

  /** The shape `^\d{4}-\d{2}-\d{2}$` that `date_input` demands of the stripped line. */
  predicate DateShape(s: string)
  {
    && |s| == 10
    && AllDigits(s[0..4]) && s[4] == '-'
    && AllDigits(s[5..7]) && s[7] == '-'
    && AllDigits(s[8..10])
  }

  /** `[int(part) for part in s.split("-")]` for a line of the right shape. */
  function DateParts(s: string): (p: seq<nat>)
    requires DateShape(s)
    ensures |p| == 3
  {
    [ParseDigits(s[0..4]), ParseDigits(s[5..7]), ParseDigits(s[8..10])]
  }

  /** On a line of the right shape, `split("-")` gives exactly the three digit runs. */
  lemma DateShapeSplit(s: string)
    requires DateShape(s)
    ensures Split(s, '-') == [s[0..4], s[5..7], s[8..10]]
  {
    var fields := [s[0..4], s[5..7], s[8..10]];
    assert Join(fields[2..], '-') == s[8..10];
    assert Join(fields[1..], '-') == s[5..7] + ['-'] + s[8..10];
    assert s == s[0..4] + ['-'] + (s[5..7] + ['-'] + s[8..10]);
    assert Join(fields, '-') == s;
    forall i | 0 <= i < 3
      ensures '-' !in fields[i]
    {
      assert forall k :: 0 <= k < |fields[i]| ==> IsDigit(fields[i][k]);
    }
    SplitJoin(fields, '-');
  }

  /** `date_input(prompt)` for one event, with the current year passed in.
      There is no lower bound: month 00 and day 00 are accepted. */
  function DateStep(currentYear: int, ev: Input): (r: Step<seq<nat>>)
    ensures ev.Interrupt? <==> r == Raised(KeyboardInterrupt)
    ensures ev.Line? ==>
      (r.Done? <==> var s := Strip(ev.text);
                    DateShape(s) && DateParts(s)[0] <= currentYear && DateParts(s)[1] <= 12 && DateParts(s)[2] <= 31)
    ensures r.Done? ==> r.value == DateParts(Strip(ev.text))
    ensures r.Done? ==> |r.value| == 3 && r.value[0] <= currentYear && r.value[1] <= 12 && r.value[2] <= 31
  {
    match ev
    case Interrupt => Raised(KeyboardInterrupt)
    case Line(raw) =>
      var s := Strip(raw);
      if !DateShape(s) then Retry
      else
        var parts := DateParts(s);
        var year, month, day := parts[0], parts[1], parts[2];
        if year > currentYear then Retry
        else if month > 12 then Retry
        else if day > 31 then Retry
        else Done(parts)
  }

  /** The `date_input` loop over a stream of events. */
  function ReadDate(currentYear: int, inputs: seq<Input>): (r: Answer<seq<nat>>)
    ensures r.Escaped? ==> r.signal == KeyboardInterrupt
    ensures r.Answered? ==> |r.value| == 3 && r.value[0] <= currentYear && r.value[1] <= 12 && r.value[2] <= 31
  {
    Run(ev => DateStep(currentYear, ev), inputs)
  }
}

=== FILE: records.dfy ===
/** The account records: the string builders `iso_date` and `new_record`, the
    first-match lookup `get_account`, and a model of reading one written line
    back as a row of fields. */
module Records {
  import opened Text

  /** The dictionary `get_account` returns. */
  datatype Account = Account(name: string, birthDate: string, favouriteArtist: string, favouriteGenre: string)

  /** A field the CSV reader takes back as written: no delimiter, no quote that
      would open a quoted field, and no line break that would end the record. */
  predicate PlainField(field: string)
  {
    ',' !in field && '"' !in field && '\r' !in field && '\n' !in field
  }

  /** `iso_date(parts)`: the parts printed with `str` and joined by "-". It holds
      only digits and "-", so it is always a plain field. */
  function IsoDate(parts: seq<nat>): (r: string)
    ensures PlainField(r)
  {
    var pieces := seq(|parts|, i requires 0 <= i < |parts| => NatToString(parts[i]));
    assert forall i :: 0 <= i < |pieces| ==> IsNumeric(pieces[i]);
    JoinKeeps(pieces, '-', ',');
    JoinKeeps(pieces, '-', '"');
    JoinKeeps(pieces, '-', '\r');
    JoinKeeps(pieces, '-', '\n');
    Join(pieces, '-')
  }

  /** `iso_date` drops padding: what is stored is not what was typed. */
  lemma IsoDateUnpadded()
    ensures IsoDate([2000, 1, 5]) == "2000-1-5"
  {
    var pieces := seq(3, i requires 0 <= i < 3 => NatToString([2000, 1, 5][i]));
    assert NatToString(2000) == "2000" by {
      assert NatToString(200) == "200" by {
        assert NatToString(20) == "20";
      }
    }
    assert pieces == ["2000", "1", "5"];
    assert Join(pieces[1..], '-') == "1-5";
  }

  /** Splitting a stored date on "-" and reading each piece with `int` gives the
      parts back: unpadded, but no information is lost. */
  lemma IsoDateReadBack(parts: seq<nat>)
    requires |parts| >= 1
    ensures |Split(IsoDate(parts), '-')| == |parts|
    ensures forall i :: 0 <= i < |parts| ==>
      var piece := Split(IsoDate(parts), '-')[i]; AllDigits(piece) && ParseDigits(piece) == parts[i]
  {
    var pieces := seq(|parts|, i requires 0 <= i < |parts| => NatToString(parts[i]));
    forall i | 0 <= i < |pieces|
      ensures '-' !in pieces[i]
    {
      assert IsNumeric(pieces[i]);
    }
    SplitJoin(pieces, '-');
    forall i | 0 <= i < |parts|
      ensures ParseDigits(pieces[i]) == parts[i]
    {
      ParseNatToString(parts[i]);
    }
  }

  /** `new_record(*columns)`: the columns joined by "," and one line terminator. */
  function NewRecord(columns: seq<string>): (r: string)
    ensures |r| >= 1 && r[|r| - 1] == '\n'
    ensures (forall i :: 0 <= i < |columns| ==> '\n' !in columns[i]) ==> '\n' !in r[..|r| - 1]
  {
    var body := Join(columns, ',');
    JoinKeeps(columns, ',', '\n');
    assert (body + "\n")[..|body|] == body;
    body + "\n"
  }

  /** Joining never introduces a character other than the separator. */
  lemma {:induction false} JoinKeeps(fields: seq<string>, sep: char, c: char)
    requires c != sep
    ensures (forall i :: 0 <= i < |fields| ==> c !in fields[i]) ==> c !in Join(fields, sep)
  {
    if |fields| > 1 {
      JoinKeeps(fields[1..], sep, c);
      assert forall i :: 1 <= i < |fields| ==> fields[1..][i - 1] == fields[i];
    }
  }

  /** One written line read back as a row, for lines that need no CSV quoting:
      the line terminator is dropped and the rest split on ","; a blank line is
      the empty row. */
  function ReadRow(line: string): seq<string>
  {
    var body := if |line| > 0 && line[|line| - 1] == '\n' then line[..|line| - 1] else line;
    if body == "" then [] else Split(body, ',')
  }

  /** A record written by `new_record` reads back as the same columns, as long as
      every column is a plain field; the one exception is a single empty column,
      which writes a blank line and reads back as the empty row. */
  lemma RecordRoundTrip(columns: seq<string>)
    requires forall i :: 0 <= i < |columns| ==> PlainField(columns[i])
    ensures ReadRow(NewRecord(columns)) == (if columns == [""] then [] else columns)
  {
    var body := Join(columns, ',');
    assert (body + "\n")[..|body|] == body;
    if |columns| >= 1 && columns != [""] {
      SplitJoin(columns, ',');
      if |columns| == 1 {
        assert body == columns[0] != "";
      } else {
        assert |body| >= 1;
      }
    }
  }

  /** A blank line in the accounts file reads as the empty row, on which
      `get_account` fails with `IndexError` before looking any further. */
  lemma BlankLineFailsLookup(rows: seq<seq<string>>, username: string)
    ensures ReadRow("\n") == []
    ensures GetAccount([ReadRow("\n")] + rows, username) == Malformed(0)
  {
    assert "\n"[..0] == "";
  }

  /** A comma inside a column is not escaped, so the row read back has an extra
      field: a column `a,b` comes back as the two fields `a` and `b`. */
  lemma CommaBreaksRecord(a: string, b: string, rest: seq<string>)
    requires PlainField(a) && PlainField(b)
    requires forall i :: 0 <= i < |rest| ==> PlainField(rest[i])
    ensures ReadRow(NewRecord([a + [','] + b] + rest)) == [a, b] + rest
  {
    var split := [a, b] + rest;
    var joined := [a + [','] + b] + rest;
    assert forall i :: 0 <= i < |split| ==> PlainField(split[i]) by {
      assert forall i :: 2 <= i < |split| ==> split[i] == rest[i - 2];
    }
    if |rest| == 0 {
      assert Join(split, ',') == Join(joined, ',') by {
        assert split[1..] == [b];
      }
    } else {
      assert split[1..] == [b] + rest && ([b] + rest)[1..] == rest;
      assert joined[1..] == rest;
      assert Join(split, ',') == a + [','] + (b + [','] + Join(rest, ','));
      assert Join(joined, ',') == (a + [','] + b) + [','] + Join(rest, ',');
    }
    assert Join(split, ',') == Join(joined, ',');
    assert NewRecord(joined) == NewRecord(split);
    RecordRoundTrip(split);
  }

  /** The result of `get_account`: the account, `None`, or the `IndexError` a row
      too short for the fields being read raises. */
  datatype Lookup = Found(account: Account) | NotFound | Malformed(row: nat)

  /** Rows before `k` can all be read and none carries `username` as its name. */
  predicate NoMatchBefore(rows: seq<seq<string>>, username: string, k: nat)
    requires k <= |rows|
  {
    forall j :: 0 <= j < k ==> |rows[j]| >= 1 && rows[j][0] != username
  }

  /** `get_account(username)` over rows already read: the first row whose field 0
      is exactly `username` gives the account; an empty row reached first, or a
      matching row with fewer than four fields, raises `IndexError`. */
  function GetAccount(rows: seq<seq<string>>, username: string): (r: Lookup)
    ensures r.NotFound? <==> NoMatchBefore(rows, username, |rows|)
    ensures r.Found? ==>
      exists i :: 0 <= i < |rows| && NoMatchBefore(rows, username, i) && |rows[i]| >= 4 && rows[i][0] == username
        && r.account == Account(rows[i][0], rows[i][1], rows[i][2], rows[i][3])
    ensures r.Malformed? ==>
      && r.row < |rows| && NoMatchBefore(rows, username, r.row)
      && (|rows[r.row]| == 0 || (rows[r.row][0] == username && |rows[r.row]| < 4))
  {
    GetAccountFrom(rows, username, 0)
  }

  function GetAccountFrom(rows: seq<seq<string>>, username: string, k: nat): (r: Lookup)
    requires k <= |rows| && NoMatchBefore(rows, username, k)
    ensures r.NotFound? <==> NoMatchBefore(rows, username, |rows|)
    ensures r.Found? ==>
      exists i :: k <= i < |rows| && NoMatchBefore(rows, username, i) && |rows[i]| >= 4 && rows[i][0] == username
        && r.account == Account(rows[i][0], rows[i][1], rows[i][2], rows[i][3])
    ensures r.Malformed? ==>
      && k <= r.row < |rows| && NoMatchBefore(rows, username, r.row)
      && (|rows[r.row]| == 0 || (rows[r.row][0] == username && |rows[r.row]| < 4))
    decreases |rows| - k
  {
    if k == |rows| then NotFound
    else
      var row := rows[k];
      if |row| == 0 then Malformed(k)
      else if row[0] == username then
        if |row| < 4 then Malformed(k)
        else Found(Account(row[0], row[1], row[2], row[3]))
      else GetAccountFrom(rows, username, k + 1)
  }

  /** `whole` is the lookup `part` found, with a row index `offset` rows further on. */
  predicate Shifted(whole: Lookup, part: Lookup, offset: nat)
  {
    if part.Malformed? then whole == Malformed(part.row + offset) else whole == part
  }

  /** Rows appended after a failed lookup do not disturb earlier rows: the lookup
      of the longer list is the lookup of the appended part (a failing row index
      moves by the length of the first part). */
  lemma GetAccountAppend(rows: seq<seq<string>>, more: seq<seq<string>>, username: string)
    requires GetAccount(rows, username).NotFound?
    ensures Shifted(GetAccount(rows + more, username), GetAccount(more, username), |rows|)
  {
    GetAccountFromShift(rows, more, username, 0);
  }

  lemma {:induction false} GetAccountFromShift(rows: seq<seq<string>>, more: seq<seq<string>>, username: string, k: nat)
    requires NoMatchBefore(rows, username, |rows|)
    requires k <= |more| && NoMatchBefore(more, username, k)
    ensures NoMatchBefore(rows + more, username, |rows| + k)
    ensures Shifted(GetAccountFrom(rows + more, username, |rows| + k), GetAccountFrom(more, username, k), |rows|)
    decreases |more| - k
  {
    var all := rows + more;
    assert forall j :: 0 <= j < |rows| + k ==> all[j] == (if j < |rows| then rows[j] else more[j - |rows|]);
    assert |all| == |rows| + |more|;
    if k < |more| {
      assert all[|rows| + k] == more[k];
      if |more[k]| >= 1 && more[k][0] != username {
        GetAccountFromShift(rows, more, username, k + 1);
      }
    }
  }
}

=== FILE: text.dfy ===
/** ASCII models of the Python string operations the program relies on:
    `str.isnumeric`, `int()` on digit strings, `str()` on naturals,
    `str.split` / `str.join` with a one-character separator, `str.lower`,
    `str.title` and `str.strip`. Only the ASCII range is modelled. */
module Text {

  predicate IsDigit(c: char) { '0' <= c <= '9' }
  predicate IsUpper(c: char) { 'A' <= c <= 'Z' }
  predicate IsLower(c: char) { 'a' <= c <= 'z' }

  /** In ASCII the "cased" characters of Python are exactly the letters. */
  predicate IsLetter(c: char) { IsUpper(c) || IsLower(c) }

  /** `str.isspace` on the ASCII range (includes the four separator controls 0x1C-0x1F). */
  predicate IsSpace(c: char)
  {
    c == ' ' || c == '\t' || c == '\n' || c == '\r' || (11 <= c as int <= 12) || (28 <= c as int <= 31)
  }

  function LowerChar(c: char): (r: char)
    ensures IsLetter(r) <==> IsLetter(c)
    ensures !IsUpper(r)
  {
    if IsUpper(c) then (c as int + 32) as char else c
  }

  function UpperChar(c: char): (r: char)
    ensures IsLetter(r) <==> IsLetter(c)
    ensures !IsLower(r)
  {
    if IsLower(c) then (c as int - 32) as char else c
  }

  predicate AllDigits(s: string)
  {
    forall i :: 0 <= i < |s| ==> IsDigit(s[i])
  }

  /** `str.isnumeric` restricted to ASCII: a non-empty run of decimal digits.
      A sign, a space or a decimal point makes it false. */
  predicate IsNumeric(s: string)
  {
    |s| > 0 && AllDigits(s)
  }

  function DigitValue(c: char): (d: nat)
    requires IsDigit(c)
    ensures d < 10
  {
    c as int - '0' as int
  }

  function DigitChar(d: nat): (c: char)
    requires d < 10
    ensures IsDigit(c) && DigitValue(c) == d
  {
    ('0' as int + d) as char
  }

  /** `int(s)` for a string of ASCII digits (leading zeros allowed). */
  function ParseDigits(s: string): nat
    requires AllDigits(s)
  {
    if |s| == 0 then 0 else ParseDigits(s[..|s| - 1]) * 10 + DigitValue(s[|s| - 1])
  }

  /** `str(n)` for a natural number: decimal, no padding. */
  function NatToString(n: nat): (r: string)
    ensures IsNumeric(r)
    ensures r[0] == '0' ==> n == 0 && |r| == 1
  {
    if n < 10 then [DigitChar(n)] else NatToString(n / 10) + [DigitChar(n % 10)]
  }

  /** Reading back what `str` printed gives the number again. */
  lemma {:induction false} ParseNatToString(n: nat)
    ensures ParseDigits(NatToString(n)) == n
  {
    var r := NatToString(n);
    if n >= 10 {
      ParseNatToString(n / 10);
      assert r[..|r| - 1] == NatToString(n / 10);
    }
  }

  /** A digit string that starts with a non-zero digit is worth at least one. */
  lemma {:induction false} LeadingDigitPositive(s: string)
    requires IsNumeric(s) && s[0] != '0'
    ensures ParseDigits(s) >= 1
  {
    if |s| > 1 {
      LeadingDigitPositive(s[..|s| - 1]);
    }
  }

  /** A digit string without a leading zero is exactly what `str` prints for its value. */
  lemma {:induction false} NatToStringParse(s: string)
    requires IsNumeric(s) && (s[0] != '0' || |s| == 1)
    ensures NatToString(ParseDigits(s)) == s
  {
    if |s| > 1 {
      var p := s[..|s| - 1];
      LeadingDigitPositive(p);
      NatToStringParse(p);
      var n := ParseDigits(s);
      assert n / 10 == ParseDigits(p) && n % 10 == DigitValue(s[|s| - 1]);
    }
  }

  /** `str(int(s)) == s` holds exactly when `s` carries no padding zero. */
  lemma CanonicalIff(s: string)
    requires IsNumeric(s)
    ensures NatToString(ParseDigits(s)) == s <==> (s[0] != '0' || |s| == 1)
  {
    if s[0] != '0' || |s| == 1 {
      NatToStringParse(s);
    }
  }

  /** `sep.join(fields)`. */
  function Join(fields: seq<string>, sep: char): string
  {
    if |fields| == 0 then ""
    else if |fields| == 1 then fields[0]
    else fields[0] + [sep] + Join(fields[1..], sep)
  }

  /** `s.split(sep)`: always at least one piece, and no piece holds the separator. */
  function Split(s: string, sep: char): (r: seq<string>)
    ensures |r| >= 1
    ensures forall i :: 0 <= i < |r| ==> sep !in r[i]
  {
    if |s| == 0 then [""]
    else
      var rest := Split(s[1..], sep);
      if s[0] == sep then [""] + rest
      else [[s[0]] + rest[0]] + rest[1..]
  }

  lemma {:induction false} SplitNoSep(a: string, sep: char)
    requires sep !in a
    ensures Split(a, sep) == [a]
  {
    if |a| > 0 {
      SplitNoSep(a[1..], sep);
      assert [a[0]] + a[1..] == a;
    }
  }

  lemma {:induction false} SplitCons(a: string, sep: char, rest: string)
    requires sep !in a
    ensures Split(a + [sep] + rest, sep) == [a] + Split(rest, sep)
  {
    var s := a + [sep] + rest;
    if |a| == 0 {
      assert s[1..] == rest;
    } else {
      assert s[1..] == a[1..] + [sep] + rest;
      SplitCons(a[1..], sep, rest);
      assert [a[0]] + a[1..] == a;
    }
  }

  /** Splitting a join gives the fields back, provided no field holds the separator. */
  lemma {:induction false} SplitJoin(fields: seq<string>, sep: char)
    requires |fields| >= 1
    requires forall i :: 0 <= i < |fields| ==> sep !in fields[i]
    ensures Split(Join(fields, sep), sep) == fields
  {
    if |fields| == 1 {
      SplitNoSep(fields[0], sep);
    } else {
      SplitJoin(fields[1..], sep);
      SplitCons(fields[0], sep, Join(fields[1..], sep));
      assert fields == [fields[0]] + fields[1..];
    }
  }

  /** Joining the pieces of a split gives the string back. */
  lemma {:induction false} JoinSplit(s: string, sep: char)
    ensures Join(Split(s, sep), sep) == s
  {
    if |s| > 0 {
      var rest := Split(s[1..], sep);
      JoinSplit(s[1..], sep);
      if s[0] != sep {
        var r := [[s[0]] + rest[0]] + rest[1..];
        assert r[1..] == rest[1..];
        if |rest| > 1 {
          assert rest == [rest[0]] + rest[1..];
        }
      }
    }
  }

  /** `str.lower` on ASCII. */
  function Lower(s: string): (r: string)
    ensures |r| == |s|
    ensures forall i :: 0 <= i < |s| ==> r[i] == LowerChar(s[i])
  {
    seq(|s|, i requires 0 <= i < |s| => LowerChar(s[i]))
  }

  /** Character `i` of `str.title`: a letter is upper-cased when it starts a run of
      letters and lower-cased otherwise; anything else is kept. */
  function TitleCharAt(s: string, i: nat): char
    requires i < |s|
  {
    if !IsLetter(s[i]) then s[i]
    else if i > 0 && IsLetter(s[i - 1]) then LowerChar(s[i])
    else UpperChar(s[i])
  }

  /** The scan CPython performs for `str.title`: `previousCased` says whether the
      character before `s` was a cased (letter) character. */
  function TitleFrom(s: string, previousCased: bool): (r: string)
    ensures |r| == |s|
    ensures forall i :: 0 <= i < |s| ==> LowerChar(r[i]) == LowerChar(s[i])
  {
    if |s| == 0 then ""
    else
      var c := if !IsLetter(s[0]) then s[0] else if previousCased then LowerChar(s[0]) else UpperChar(s[0]);
      [c] + TitleFrom(s[1..], IsLetter(s[0]))
  }

  /** `str.title` on ASCII: only the case of letters changes. */
  function Title(s: string): (r: string)
    ensures |r| == |s|
    ensures Lower(r) == Lower(s)
  {
    TitleFrom(s, false)
  }

  lemma {:induction false} TitleFromAt(s: string, previousCased: bool, i: nat)
    requires i < |s|
    ensures TitleFrom(s, previousCased)[i] ==
      (if !IsLetter(s[i]) then s[i]
       else if (if i == 0 then previousCased else IsLetter(s[i - 1])) then LowerChar(s[i])
       else UpperChar(s[i]))
  {
    if i > 0 {
      TitleFromAt(s[1..], IsLetter(s[0]), i - 1);
    }
  }

  /** The scan computes, position by position, the rule stated by `TitleCharAt`. */
  lemma TitleAt(s: string)
    ensures forall i :: 0 <= i < |s| ==> Title(s)[i] == TitleCharAt(s, i)
  {
    forall i | 0 <= i < |s|
      ensures Title(s)[i] == TitleCharAt(s, i)
    {
      TitleFromAt(s, false, i);
    }
  }

  /** Title-casing only looks at letters up to case: two strings that agree once
      lower-cased have the same title form. */
  lemma TitleIgnoresCase(s: string, t: string)
    requires Lower(s) == Lower(t)
    ensures Title(s) == Title(t)
  {
    TitleAt(s);
    TitleAt(t);
    forall i | 0 <= i < |s|
      ensures Title(s)[i] == Title(t)[i]
    {
      assert Lower(s)[i] == Lower(t)[i];
      if i > 0 {
        assert Lower(s)[i - 1] == Lower(t)[i - 1];
        SameLetterUpToCase(s[i - 1], t[i - 1]);
      }
      SameLetterUpToCase(s[i], t[i]);
    }
  }

  /** Two characters equal up to case are both letters or both not, and
      agree once upper- or lower-cased. */
  lemma SameLetterUpToCase(a: char, b: char)
    requires LowerChar(a) == LowerChar(b)
    ensures IsLetter(a) <==> IsLetter(b)
    ensures UpperChar(a) == UpperChar(b)
    ensures !IsLetter(a) ==> a == b
  {
  }

  /** Title-casing twice is title-casing once. */
  lemma TitleIdempotent(s: string)
    ensures Title(Title(s)) == Title(s)
  {
    var t := Title(s);
    TitleAt(s);
    TitleAt(t);
    forall i | 0 <= i < |s|
      ensures Title(t)[i] == t[i]
    {
      if i > 0 {
        assert IsLetter(t[i - 1]) <==> IsLetter(s[i - 1]);
      }
    }
  }

  /** Number of whitespace characters `str.strip` removes from the front. */
  function LeadingSpaces(s: string): (n: nat)
    ensures n <= |s|
    ensures forall i :: 0 <= i < n ==> IsSpace(s[i])
    ensures n == |s| || !IsSpace(s[n])
  {
    if |s| == 0 || !IsSpace(s[0]) then 0 else 1 + LeadingSpaces(s[1..])
  }

  /** Number of whitespace characters `str.strip` removes from the back. */
  function TrailingSpaces(s: string): (n: nat)
    ensures n <= |s|
    ensures forall i :: |s| - n <= i < |s| ==> IsSpace(s[i])
    ensures n == |s| || !IsSpace(s[|s| - n - 1])
  {
    if |s| == 0 || !IsSpace(s[|s| - 1]) then 0 else 1 + TrailingSpaces(s[..|s| - 1])
  }

  /** `str.strip()` with no argument, on ASCII. */
  function Strip(s: string): (r: string)
    ensures |r| <= |s|
    ensures |r| == 0 || (!IsSpace(r[0]) && !IsSpace(r[|r| - 1]))
  {
    var rest := s[LeadingSpaces(s)..];
    rest[..|rest| - TrailingSpaces(rest)]
  }
}

=== FILE: wrappers.dfy ===
/** The optional-value type shared by the other modules (Python's `None` or a value). */
module Wrappers {

  datatype Option<+T> = None | Some(value: T)
}
